=== FILE: README.md ===
# lair evaluator — a Dafny model

lair is a small interpreter for an indentation-structured scripting language.
This project models its evaluator and the function-binding environment it runs
in. It also models the value and syntax-tree types the evaluator walks.

- **Environment** (`environment.dfy`). Two name tables: builtins (`cFunctions`,
  name to arity and native callable) and program-defined functions (`functions`,
  name to definition node). Registering a builtin refuses a name that is
  already registered. The standard environment holds `+` (arity 2) and `print`
  (arity 1). Names resolve builtin-first.
- **Evaluator** (`eval.dfy`). A pure, fuel-bounded walk over an immutable
  syntax tree.
  - A call node delegates to the callee found at `next`.
  - An atom node falls through into the return case: both yield the atom of
    `next`.
  - Every other node yields its own atom.
  - A builtin call accepts only a call as its argument. It evaluates that
    argument first, then passes it as a one-element argument array, together
    with the builtin's declared arity.
  - A program-defined call skips the parameter markers after the definition
    node. It is supported only when there are none.
- **Driver** (`driver.dfy`). Builds the standard environment, then visits the
  root's children along the `sibling` links. Each node is visited once, in
  order. Calls are evaluated. Function definitions are entered under their name
  without evaluating the body. Other nodes are skipped. A completed run
  yields 0.
- **Types** (`parse.dfy`, `common.dfy`). The closed 13-kind token enumeration.
  Tokens, with an unsigned indentation level (`UInt32`, never negative).
  Values: a kind tag plus an int-or-string payload, immutable once built.
  Syntax nodes: one atom and three independent optional links (`next`,
  `children`, `sibling`).
- **Scenarios** (`scenarios.dfy`). Whole programs built as trees, with what
  running them does.

Native callables are opaque. Each has an identity (`NativeFn`), and what it
returns is a function parameter (`Natives`). Every native call is recorded in a
trace as (name, callable, argc, argument array), so the order of side effects
can be stated.

Every abort of the C code becomes a `Fault` value:
- `NoSuchFunction`: no function has that name.
- `NotYetImplemented`: an unsupported argument shape, or a call of a function
  with parameters.
- `EmptyName`: a builtin was registered with an empty name.
- `BuiltinRefused`: a registration of the standard environment returned NULL
  (the assertion at src/eval.c:12-13). Its contract shows this cannot happen.
- `NullLink`: the code dereferences a `next` link that is NULL (undefined
  behaviour in C).
- `NotAName`: a name is read from an atom whose payload is an int (also
  undefined behaviour in C).

A program-defined body can call back into the function table, so evaluation
need not terminate. `fuel` bounds how deeply program-defined bodies may nest.
`OutOfFuel` is the only fault that stands for no abort or undefined behaviour of the code.
`EnvEvalFuelMonotone` shows that more fuel never changes a result that did not
run out of fuel.

Where the code behaves in a way a reader of the language might not expect,
the model follows the code:
- **Builtin arguments.** A builtin's argument must be a call node
  (src/eval.c:47). So `print` applied directly to a number literal aborts with
  "Not yet implemented" instead of printing. `Scenarios.PrintOfNumberIsUnsupported`
  shows this.
- **Duplicate builtin names.** Registering one is not an error kind: the
  function returns NULL (src/eval.c:29-30). `AddBuiltinFunction` answers
  `Ok(Registration(env, None))` with the environment unchanged.
- **Aborts.** An undefined name, or a call of a function with parameters, is a
  process abort in the code. Here each is a `Fault`.

## Model

| member | source | states |
|---|---|---|
| Parse.KindsAreExactlyThirteen | include/parse.h:12-26 | token kinds number exactly 0..12 in declaration order; the numbering is injective and has an inverse, so the enumeration is closed with thirteen kinds |
| Environment.AddBuiltinFunction | src/eval.c:18-44 | empty name aborts; a name already in the builtin table returns NULL and leaves the environment unchanged; a fresh name is bound to (argc, callable), the returned descriptor is what a lookup then finds, no other name changes and the user table is untouched |
| Environment.SecondRegistrationRefused | src/eval.c:27-30 | registering a name twice: the second call returns NULL and the first binding survives |
| Environment.RegistrationsCommute | src/eval.c:28-40 | registering two different fresh names yields the same builtin table in either order |
| Environment.StandardEnv | src/eval.c:9-16 | both asserted registrations succeed: the builtin table is exactly `+` with arity 2 and `print` with arity 1, and there are no user functions |
| Environment.StandardEnvWithoutAssertions | src/eval.c:12-13 | with assertions compiled out, neither registration is made, so the builtin table holds neither `+` nor `print` |
| Environment.AssertionsCarryTheRegistrations | src/eval.c:12-13 | without assertions neither `+` nor `print` resolves to anything; with them both resolve to their builtins |
| Environment.Define | src/eval.c:123-128 | entering a definition binds its name (to the node itself when the name was new, whichever insert policy), adds exactly that key, changes no other name and never touches builtins |
| Environment.Resolve | src/eval.c:70-79 | a name in the builtin table resolves to that builtin whatever the user table holds; a name only in the user table resolves to its definition node, and a user function is found only when no builtin has the name; a name in neither table resolves to nothing |
| Environment.ResolveSeesOnlyReachable | src/eval.c:73-78 | resolution gives the same answer in two environments that differ only in user bindings hidden behind builtins |
| Eval.SkipArgs | src/eval.c:81-87 | the count is the number of consecutive parameter markers at the start of the definition's `next` chain and the node returned is the first non-marker on that chain; it fails (NULL dereference) exactly when every node of the chain is a marker |
| Eval.EnvEval | src/eval.c:98-110 | a node that is not a call invokes no native function and can only fail by dereferencing a NULL `next` |
| Eval.CallFunction | src/eval.c:65-96 | a non-string callee is rejected; a name in neither table aborts with "No such function" and calls nothing; a successful call of a builtin ends with that builtin's invocation (its callable and declared argc) and yields what the native returned for it; a successful call of a user function had fuel left and a definition whose first `next` node is not a parameter marker |
| Eval.CallBuiltin | src/eval.c:46-63 | succeeds only when the node after the callee is a call; any other argument shape aborts without calling anything; the argument is evaluated first, its native calls come before the builtin's own, which receives a one-element array with the builtin's declared argc; a failing argument stops the call |
| Eval.AtomBehavesAsReturn | src/eval.c:102-107 | an atom node evaluates exactly like a return node with the same links: both yield the atom of `next` |
| Eval.OtherKindsYieldOwnAtom | src/eval.c:108-109 | every kind other than call, atom and return yields its own atom unchanged and calls nothing |
| Eval.CallDelegates | src/eval.c:100-101 | a call node evaluates exactly as a call of the node at its `next`, whatever that node's kind; with no `next` it fails as a NULL dereference and calls nothing |
| Eval.BuiltinNameCallsBuiltin | src/eval.c:73-75 | a name in the builtin table is called as that builtin (argument evaluated first, non-call argument not supported), whatever the user table holds |
| Eval.CalleeReadsOnlyNameAndNext | src/eval.c:65-96 | a call reads only the callee's name and its `next` link: two callees that agree on those give the same evaluation |
| Eval.DefinedCallSkipsParameters | src/eval.c:81-93 | for a user function with k leading parameter markers: k > 0 aborts as not implemented; k = 0 evaluates the first node after the definition |
| Eval.EnvEvalInvokesRegistered | src/eval.c:46-53 | every recorded native call names a registered builtin, with that builtin's callable and declared argc, and passes exactly one argument |
| Eval.CallFunctionInvokesRegistered | src/eval.c:73-75 | the same for a call resolved by name |
| Eval.EnvEvalSameReachable | src/eval.c:73-78 | evaluation agrees in any two environments that differ only in user bindings hidden behind builtins |
| Eval.CallFunctionSameReachable | src/eval.c:70-79 | the same for a call resolved by name |
| Eval.BuiltinHidesDefinedFunction | src/eval.c:73-75 | a user function named like a builtin is unreachable: rebinding or removing it changes no evaluation |
| Eval.EnvEvalFuelMonotone | src/eval.c:89-93 | more fuel never changes an evaluation that did not run out of fuel |
| Eval.CallFunctionFuelMonotone | src/eval.c:89-93 | the same for a call resolved by name |
| Eval.ChainStep | include/parse.h:67-72 | on a `next` chain, the node after position k is the `next` of the node at position k |
| Eval.EnvEvalInventsNothing | src/eval.c:98-110 | evaluation is read-only and invents no values: a call yields what the last native call returned or an unchanged atom of a definition chain; any other node yields its own atom or that of its `next` |
| Eval.CallFunctionInventsNothing | src/eval.c:65-96 | a call's value is the last native call's return value or an unchanged atom of a definition chain |
| Driver.TopLevel | src/eval.c:116-136 | running top-level nodes never changes the builtin table, and a completed run yields 0 |
| Driver.TopLevelDefines | src/eval.c:120-132 | a completed run has entered exactly the names of the definitions it passed into the user table; a list without calls calls no native function, so definition bodies are not evaluated |
| Driver.TopLevelBindsDefinitionNodes | src/eval.c:123-128 | after a completed run every user binding is either the one the run started with or a definition node of the list whose atom is a function named exactly that, whatever the insert policy |
| Driver.CallStatementIsEvaluated | src/eval.c:121-122 | a top-level call is evaluated: the run records exactly its native calls, keeps the environment, completes exactly when the call succeeds and otherwise fails with the call's fault |
| Driver.OtherNodeIsSkipped | src/eval.c:120-131 | a top-level node that is neither a call nor a function definition is skipped: the run over it and the rest equals the run over the rest alone |
| Driver.NoCallsCompletes | src/eval.c:120-135 | a list with no calls, whose definitions are all named by strings, always completes with 0, whatever other nodes it holds |
| Driver.Evaluate | src/eval.c:116-136 | the loop over the sibling chain from `root.children` computes exactly the reference run over that chain from the standard environment: each node visited once, in order |
| Driver.TopLevelSequential | src/eval.c:120-132 | running `a + b` is running `a` and then, if it completed, `b` in the environment `a` left; every native call of `a` precedes every native call of `b`, and a failure in `a` ends the run |
| Driver.CallBeforeDefinitionFails | src/eval.c:120-129 | a call of a name that is neither a builtin nor defined earlier fails with "No such function", even if a later node defines it, and after the calls of the earlier nodes only |
| Driver.TopLevelInvokesRegistered | src/eval.c:120-122 | every native call of a run names a builtin of the run's environment with its callable and arity and one argument |
| Driver.ProgramCallsOnlyStandardBuiltins | src/eval.c:117-122 | a whole program only calls `+` with argc 2 or `print` with argc 1, each time with a one-element argument array |
| Scenarios.CallOfDefinedOne | src/eval.c:81-92 | calling a parameterless user function whose body is the number 1 yields 1 and calls nothing |
| Scenarios.BuiltinOfDefinedOne | src/eval.c:46-53 | a builtin applied to such a call is invoked once, with that value, its own callable and argc |
| Scenarios.DefineThenPrint | src/eval.c:116-135 | defining `one` then running `print (one)` succeeds with exactly one `print` call, with argument 1 |
| Scenarios.PrintBeforeDefine | src/eval.c:120-129 | the same statements in the other order fail with "No such function" and print nothing |
| Scenarios.PrintOfNumberIsUnsupported | src/eval.c:47-55 | `print` applied directly to a number aborts as not implemented and prints nothing |
| Scenarios.ParameterisedCallIsUnsupported | src/eval.c:81-90 | calling a user function that declares a parameter aborts as not implemented and prints nothing |
| Scenarios.StatementOfDefinedOne | src/eval.c:120-122 | the top-level statement `b (name)`, with `name` defined as the number 1, completes, leaves the environment unchanged and records exactly one call of `b` with argument 1 |
| Scenarios.DefineThenTwoStatements | src/eval.c:120-132 | a definition followed by two builtin statements completes and records the two builtin calls in statement order |
| Scenarios.TwoCallsInOrder | src/eval.c:120-132 | two top-level calls are made left to right: the first one's native call is recorded before the second one's |

## Findings

| source | as written | input that shows it | evidently intended | confidence | as-written member | corrected member |
|---|---|---|---|---|---|---|
| src/eval.c:12-13 | both builtin registrations are made inside `assert(...)`, so a build with `NDEBUG` never makes them | any program calling `print` or `+`, built with `-DNDEBUG`: the name is in neither table | register first, then assert on the returned descriptor, so `+` and `print` exist in every build | medium; not executed | Environment.AssertionsCarryTheRegistrations | Environment.StandardEnv |

## Left out

- Lexer and parser bodies (`_lair_tokenize`, `_lair_parse_from_tokens`). Only their declarations exist in include/parse.h, so there is nothing to model them from. Programs enter the model as syntax trees.
- `lair_print_tokens` and `_lair_free_tokens`. These are debug output and memory teardown.
- The doubly-linked `prev`/`next` links of tokens. A token stream is a `seq<Token>`, and neighbours are adjacent positions.
- The ternary-search-tree map behind the two tables (map.h is not part of this model). It is treated as a finite map whose lookup answers NULL for a missing key. Whether an insert overwrites a key already present cannot be seen, so `Define` takes an `InsertPolicy`. No property depends on the choice.
- The native implementations `_lair_builtin_operator_plus` and `_lair_builtin_print` (lair_std is not part of this model). Their results are the `natives` parameter. The output of `print` appears only as an entry in the trace. Every native is assumed to return normally (never to abort or loop), so a builtin call fails only through its argument. The `argc` passed to a native is the builtin's declared arity, not the length of the argument array: `+` receives argc 2 with a one-element array (src/eval.c:51-53). Whether the native then reads past the array cannot be seen without lair_std, so the model only records both numbers in the trace.
- Memory management: `calloc`, `memcpy`, `free`, the unused `argv` buffer of each builtin descriptor, and `_lair_free_env`.
- Pointer identity: a returned value is a copy of the atom, not the address of the node's field.
- Shared and cyclic syntax trees. A syntax tree here is a finite, acyclic value, so two links cannot point at the same node and no `next` or `sibling` chain can loop back. In the code a `sibling` cycle makes the loop at src/eval.c:120-132 run forever, and a `next` cycle of parameter markers does the same at src/eval.c:84-87. The model's versions of these two loops (`Driver.Evaluate`, `Eval.SkipArgs`) end only because trees are finite.
- Eval.EnvEval: an atom or return node with a NULL `next` stops with `NullLink`. At src/eval.c:107, `&ast->next->atom` only forms an address and reads nothing, so a typical build returns a bogus non-NULL pointer. src/eval.c:122 then discards it and the run goes on. The model treats this undefined behaviour as a failure.
- Process aborts and undefined behaviour. These become `Fault` values, and no process state is modelled.
- Builds with assertions compiled out (`NDEBUG`). Everywhere except the finding below, `assert` is taken to be enabled. Without it, the two registrations at src/eval.c:12-13 are never made (see `Environment.StandardEnvWithoutAssertions`). The "not implemented" branches at src/eval.c:55 and src/eval.c:90 would fall through to `return NULL`. A missing function at src/eval.c:79 would be dereferenced at src/eval.c:83.
- Names are `seq<char>` values. They are taken to contain no NUL character, because the code measures them with `strlen` (src/eval.c:25, 28, 71, 126).
- The `int` parameter counter in `_lair_call_function`. It is a `nat`, because overflowing it would need more than 2^31 nodes.
- Eval.EnvEval: stops with `OutOfFuel` once program-defined bodies nest deeper than `fuel`, where the code would recurse without bound. The results agree whenever fuel suffices (`Eval.EnvEvalFuelMonotone`).

=== FILE: common.dfy ===
/** Machine integer ranges, optional values and the failure kinds of the evaluator. */
module Common {

  /** The range of a C `int`. */
  type Int32 = x: int | -0x8000_0000 <= x < 0x8000_0000

  /** The range of a C `unsigned int`. */
  type UInt32 = x: int | 0 <= x < 0x1_0000_0000

  /** A possibly absent value: `None` plays the part of a NULL pointer. */
  datatype Option<+T> = None | Some(value: T)

  /** Why an evaluation stopped. Every variant except `OutOfFuel` stands for a
      point where the C program aborts (a failed `assert`) or dereferences a
      pointer it never checked. */
  datatype Fault =
    | EmptyName                     // a builtin registered under the empty name
    | BuiltinRefused(name: string)  // a standard builtin's registration came back NULL
    | NoSuchFunction(name: string)  // a called name is in neither table
    | NotYetImplemented             // an argument shape or parameter list the evaluator lacks
    | NullLink                      // a `next` link that the code dereferences is NULL
    | NotAName                      // a name is read from an atom whose payload is not a string
    | OutOfFuel                     // the model's bound on nested user-function calls ran out

  datatype Result<+T> = Ok(value: T) | Fail(fault: Fault)

  /** A lookup in a finite map that answers NULL for a missing key, as the
      map behind the environment does. */
  function Lookup<K, V>(m: map<K, V>, k: K): (r: Option<V>)
    ensures r.Some? <==> k in m
    ensures r.Some? ==> r.value == m[k]
  {
    if k in m then Some(m[k]) else None
  }
}

=== FILE: driver.dfy ===
/** The top-level driver: builds the standard environment and walks the
    program's top-level nodes once, in order. */
module Driver {
  import opened Common
  import opened Parse
  import opened Environment
  import opened Eval

  /** The outcome of running a list of top-level nodes: the status (`0` on
      completion), the native calls made, and the environment left behind. */
  datatype Outcome = Outcome(status: Result<int>, trace: Trace, env: Env)

  /** The names under which a list of top-level nodes defines functions. */
  ghost function DefinedNames(nodes: seq<Ast>): set<string> {
    set i | 0 <= i < |nodes| && nodes[i].atom.kind == Function && nodes[i].atom.payload.Str?
          :: nodes[i].atom.payload.str
  }

  /** True when no node of the list is a call. */
  ghost predicate NoCalls(nodes: seq<Ast>) {
    forall i :: 0 <= i < |nodes| ==> nodes[i].atom.kind != Call
  }

  /** Runs top-level nodes in order: a call is evaluated (its value dropped),
      a function definition is entered into the user table under its name
      without evaluating its body, and any other node is skipped. The first
      failure stops the run. */
  function TopLevel(nodes: seq<Ast>, env: Env, natives: Natives, policy: InsertPolicy, fuel: nat): (o: Outcome)
    ensures o.env.cFunctions == env.cFunctions
    ensures o.status.Ok? ==> o.status.value == 0
    decreases |nodes|
  {
    if |nodes| == 0 then Outcome(Ok(0), [], env)
    else
      var n := nodes[0];
      if n.atom.kind == Call then
        var s := EnvEval(n, env, natives, fuel);
        if s.result.Fail? then Outcome(Fail(s.result.fault), s.trace, env)
        else
          var rest := TopLevel(nodes[1..], env, natives, policy, fuel);
          Outcome(rest.status, s.trace + rest.trace, rest.env)
      else if n.atom.kind == Function then
        if n.atom.payload.Num? then Outcome(Fail(NotAName), [], env)
        else TopLevel(nodes[1..], Define(env, n.atom.payload.str, n, policy), natives, policy, fuel)
      else TopLevel(nodes[1..], env, natives, policy, fuel)
  }

  /** A completed run has entered exactly the names of the list's definitions
      into the user table, whatever the insert policy; a list without calls
      calls no native function (definition bodies are not evaluated). */
  lemma {:induction false} TopLevelDefines(nodes: seq<Ast>, env: Env, natives: Natives, policy: InsertPolicy, fuel: nat)
    ensures var o := TopLevel(nodes, env, natives, policy, fuel);
      && (o.status.Ok? ==> o.env.functions.Keys == env.functions.Keys + DefinedNames(nodes))
      && (NoCalls(nodes) ==> o.trace == [])
    decreases |nodes|
  {
    if |nodes| > 0 {
      var n := nodes[0];
      assert forall i :: 0 < i < |nodes| ==> nodes[i] == nodes[1..][i - 1];
      assert DefinedNames(nodes) == DefinedNames(nodes[..1]) + DefinedNames(nodes[1..]);
      var e := if n.atom.kind == Function && n.atom.payload.Str? then Define(env, n.atom.payload.str, n, policy) else env;
      TopLevelDefines(nodes[1..], e, natives, policy, fuel);
    }
  }

  /** After a completed run every user binding is either the one the run
      started with or a definition node of the list carrying that very name,
      whatever the insert policy. */
  lemma {:induction false} TopLevelBindsDefinitionNodes(nodes: seq<Ast>, env: Env, natives: Natives, policy: InsertPolicy, fuel: nat)
    ensures var o := TopLevel(nodes, env, natives, policy, fuel);
      o.status.Ok? ==>
        forall name :: name in o.env.functions ==>
          || (name in env.functions && o.env.functions[name] == env.functions[name])
          || (exists i :: 0 <= i < |nodes| && nodes[i] == o.env.functions[name]
                          && nodes[i].atom == Value(Function, Str(name)))
    decreases |nodes|
  {
    var o := TopLevel(nodes, env, natives, policy, fuel);
    if |nodes| > 0 && o.status.Ok? {
      var n := nodes[0];
      var e := if n.atom.kind == Function && n.atom.payload.Str? then Define(env, n.atom.payload.str, n, policy) else env;
      TopLevelBindsDefinitionNodes(nodes[1..], e, natives, policy, fuel);
      assert o.env == TopLevel(nodes[1..], e, natives, policy, fuel).env;
      forall name | name in o.env.functions
        ensures || (name in env.functions && o.env.functions[name] == env.functions[name])
                || (exists i :: 0 <= i < |nodes| && nodes[i] == o.env.functions[name]
                                && nodes[i].atom == Value(Function, Str(name)))
      {
        if exists j :: 0 <= j < |nodes[1..]| && nodes[1..][j] == o.env.functions[name]
                       && nodes[1..][j].atom == Value(Function, Str(name)) {
          var j :| 0 <= j < |nodes[1..]| && nodes[1..][j] == o.env.functions[name]
                   && nodes[1..][j].atom == Value(Function, Str(name));
          assert nodes[j + 1] == nodes[1..][j];
        } else {
          assert name in e.functions && o.env.functions[name] == e.functions[name];
          if n.atom.kind == Function && n.atom.payload.Str? {
            var m := n.atom.payload.str;
            if name == m {
              if e.functions[name] == n {
                assert n.atom == Value(Function, Str(name));
                assert nodes[0] == o.env.functions[name];
              } else {
                assert name in env.functions && e.functions[name] == env.functions[name];
              }
            } else {
              assert Lookup(e.functions, name) == Lookup(env.functions, name);
            }
          }
        }
      }
    }
  }

  /** A top-level call is evaluated: its native calls are the run's, it leaves
      the environment as it was, and its failure is the run's failure. */
  lemma CallStatementIsEvaluated(n: Ast, env: Env, natives: Natives, policy: InsertPolicy, fuel: nat)
    requires n.atom.kind == Call
    ensures var s := EnvEval(n, env, natives, fuel);
      var o := TopLevel([n], env, natives, policy, fuel);
      && o.trace == s.trace
      && o.env == env
      && (o.status.Ok? <==> s.result.Ok?)
      && (s.result.Fail? ==> o.status == Fail(s.result.fault))
  {
    assert [n][1..] == [];
  }

  /** A node that is neither a call nor a function definition is skipped: it
      changes neither the environment nor the trace, and cannot fail. */
  lemma OtherNodeIsSkipped(n: Ast, rest: seq<Ast>, env: Env, natives: Natives, policy: InsertPolicy, fuel: nat)
    requires n.atom.kind != Call && n.atom.kind != Function
    ensures TopLevel([n] + rest, env, natives, policy, fuel) == TopLevel(rest, env, natives, policy, fuel)
  {
    assert ([n] + rest)[1..] == rest;
  }

  /** A list without calls whose definitions are all named by strings always
      completes: definitions are entered and every other node is skipped. */
  lemma {:induction false} NoCallsCompletes(nodes: seq<Ast>, env: Env, natives: Natives, policy: InsertPolicy, fuel: nat)
    requires NoCalls(nodes)
    requires forall i :: 0 <= i < |nodes| && nodes[i].atom.kind == Function ==> nodes[i].atom.payload.Str?
    ensures TopLevel(nodes, env, natives, policy, fuel).status == Ok(0)
    decreases |nodes|
  {
    if |nodes| > 0 {
      var n := nodes[0];
      assert forall i :: 0 <= i < |nodes[1..]| ==> nodes[1..][i] == nodes[i + 1];
      if n.atom.kind == Function {
        NoCallsCompletes(nodes[1..], Define(env, n.atom.payload.str, n, policy), natives, policy, fuel);
      } else {
        NoCallsCompletes(nodes[1..], env, natives, policy, fuel);
      }
    }
  }

  /** Evaluates a program: the standard environment, then the nodes reached
      from `root.children` by following `sibling`, each visited exactly once. */
  method Evaluate(root: Ast, natives: Natives, policy: InsertPolicy, fuel: nat) returns (status: Result<int>, trace: Trace)
    ensures var o := TopLevel(Siblings(root.children), StandardEnv().value, natives, policy, fuel);
      status == o.status && trace == o.trace
  {
    var env := StandardEnv().value;
    ghost var all := Siblings(root.children);
    ghost var env0 := env;
    trace := [];
    var cur := root.children;
    while cur.Some?
      invariant var o := TopLevel(Siblings(cur), env, natives, policy, fuel);
        var whole := TopLevel(all, env0, natives, policy, fuel);
        whole.status == o.status && whole.trace == trace + o.trace
      decreases cur
    {
      var n := cur.value;
      ghost var rest := Siblings(n.sibling);
      assert Siblings(cur) == [n] + rest;
      assert ([n] + rest)[1..] == rest;
      if n.atom.kind == Call {
        var s := EnvEval(n, env, natives, fuel);
        ghost var r := TopLevel(rest, env, natives, policy, fuel);
        assert TopLevel([n] + rest, env, natives, policy, fuel)
            == if s.result.Fail? then Outcome(Fail(s.result.fault), s.trace, env)
               else Outcome(r.status, s.trace + r.trace, r.env);
        assert trace + (s.trace + r.trace) == (trace + s.trace) + r.trace;
        trace := trace + s.trace;
        if s.result.Fail? {
          status := Fail(s.result.fault);
          return;
        }
      } else if n.atom.kind == Function {
        if n.atom.payload.Num? {
          status := Fail(NotAName);
          return;
        }
        env := Define(env, n.atom.payload.str, n, policy);
      }
      cur := n.sibling;
    }
    status := Ok(0);
  }

  // ---------------------------------------------------------------------
  // Ordering

  /** Running `a + b` is running `a` and then, if it completed, running `b`
      in the environment `a` left behind: every native call of `a` happens
      before every native call of `b`. */
  lemma {:induction false} TopLevelSequential(a: seq<Ast>, b: seq<Ast>, env: Env, natives: Natives, policy: InsertPolicy, fuel: nat)
    ensures var ra := TopLevel(a, env, natives, policy, fuel);
      && (ra.status.Fail? ==> TopLevel(a + b, env, natives, policy, fuel) == ra)
      && (ra.status.Ok? ==>
            var rb := TopLevel(b, ra.env, natives, policy, fuel);
            TopLevel(a + b, env, natives, policy, fuel) == Outcome(rb.status, ra.trace + rb.trace, rb.env))
    decreases |a|
  {
    if |a| == 0 {
      assert a + b == b;
    } else {
      assert (a + b)[0] == a[0];
      assert (a + b)[1..] == a[1..] + b;
      var n := a[0];
      match n.atom.kind
      case Call =>
        TopLevelSequential(a[1..], b, env, natives, policy, fuel);
        var s := EnvEval(n, env, natives, fuel);
        if s.result.Ok? {
          var ra' := TopLevel(a[1..], env, natives, policy, fuel);
          if ra'.status.Ok? {
            var rb := TopLevel(b, ra'.env, natives, policy, fuel);
            assert s.trace + (ra'.trace + rb.trace) == (s.trace + ra'.trace) + rb.trace;
          }
        }
      case Function =>
        if n.atom.payload.Str? {
          TopLevelSequential(a[1..], b, Define(env, n.atom.payload.str, n, policy), natives, policy, fuel);
        }
      case _ =>
        TopLevelSequential(a[1..], b, env, natives, policy, fuel);
    }
  }

  /** A call placed before the definition it names fails: definitions take
      effect only when the walk reaches them. */
  lemma CallBeforeDefinitionFails(a: seq<Ast>, call: Ast, b: seq<Ast>, env: Env, natives: Natives, policy: InsertPolicy, fuel: nat, name: string)
    requires call.atom.kind == Call && call.next.Some? && call.next.value.atom.payload == Str(name)
    requires name !in env.cFunctions && name !in env.functions && name !in DefinedNames(a)
    requires TopLevel(a, env, natives, policy, fuel).status.Ok?
    ensures var o := TopLevel(a + [call] + b, env, natives, policy, fuel);
      && o.status == Fail(NoSuchFunction(name))
      && o.trace == TopLevel(a, env, natives, policy, fuel).trace
  {
    var ra := TopLevel(a, env, natives, policy, fuel);
    TopLevelDefines(a, env, natives, policy, fuel);
    TopLevelSequential(a, [call] + b, env, natives, policy, fuel);
    assert a + [call] + b == a + ([call] + b);
    assert ([call] + b)[0] == call;
    assert Resolve(ra.env, name).None?;
    assert TopLevel([call] + b, ra.env, natives, policy, fuel).status == Fail(NoSuchFunction(name));
  }

  /** Every native call made by a run names a builtin of the run's
      environment, with that builtin's callable and arity and one argument. */
  lemma {:induction false} TopLevelInvokesRegistered(nodes: seq<Ast>, env: Env, natives: Natives, policy: InsertPolicy, fuel: nat)
    ensures InvokesRegistered(TopLevel(nodes, env, natives, policy, fuel).trace, env)
    decreases |nodes|
  {
    if |nodes| > 0 {
      var n := nodes[0];
      match n.atom.kind
      case Call =>
        EnvEvalInvokesRegistered(n, env, natives, fuel);
        TopLevelInvokesRegistered(nodes[1..], env, natives, policy, fuel);
        var s := EnvEval(n, env, natives, fuel);
        if s.result.Ok? {
          var rest := TopLevel(nodes[1..], env, natives, policy, fuel);
          var t := s.trace + rest.trace;
          assert forall i :: |s.trace| <= i < |t| ==> t[i] == rest.trace[i - |s.trace|];
        }
      case Function =>
        if n.atom.payload.Str? {
          var e := Define(env, n.atom.payload.str, n, policy);
          TopLevelInvokesRegistered(nodes[1..], e, natives, policy, fuel);
        }
      case _ =>
        TopLevelInvokesRegistered(nodes[1..], env, natives, policy, fuel);
    }
  }

  /** A whole program only ever calls `+` (argc 2) and `print` (argc 1), each
      time with a one-element argument array. */
  lemma ProgramCallsOnlyStandardBuiltins(root: Ast, natives: Natives, policy: InsertPolicy, fuel: nat)
    ensures var t := TopLevel(Siblings(root.children), StandardEnv().value, natives, policy, fuel).trace;
      forall i :: 0 <= i < |t| ==>
        && (t[i] == Invocation("+", PlusFn, 2, t[i].args) || t[i] == Invocation("print", PrintFn, 1, t[i].args))
        && |t[i].args| == 1
  {
    var env := StandardEnv().value;
    TopLevelInvokesRegistered(Siblings(root.children), env, natives, policy, fuel);
    var t := TopLevel(Siblings(root.children), env, natives, policy, fuel).trace;
    forall i | 0 <= i < |t|
      ensures t[i] == Invocation("+", PlusFn, 2, t[i].args) || t[i] == Invocation("print", PrintFn, 1, t[i].args)
    {
      assert t[i].name in env.cFunctions;
      if t[i].name == "+" {
        assert Lookup(env.cFunctions, "+") == Some(Builtin(2, PlusFn));
      } else {
        assert Lookup(env.cFunctions, "print") == Some(Builtin(1, PrintFn));
      }
    }
  }
}

=== FILE: environment.dfy ===
/** The function-binding environment: a table of native ("builtin") functions
    and a table of functions defined by the program, both keyed by name. */
module Environment {
  import opened Common
  import opened Parse

  /** The identity of a native callable (a C function pointer). What it
      computes is not part of this model. */
  datatype NativeFn = NativeFn(symbol: string)

  const PlusFn: NativeFn := NativeFn("_lair_builtin_operator_plus")
  const PrintFn: NativeFn := NativeFn("_lair_builtin_print")

  /** A registered builtin: its declared arity and its callable. */
  datatype Builtin = Builtin(argc: Int32, fn: NativeFn)

  /** Builtins by name, and program-defined functions by name bound to their
      definition node. */
  datatype Env = Env(cFunctions: map<string, Builtin>, functions: map<string, Ast>)

  /** A freshly zero-allocated environment: both tables empty. */
  const EmptyEnv: Env := Env(map[], map[])

  /** What registering a builtin leaves behind: the environment after the call
      and the returned descriptor (`None` for the NULL the source returns). */
  datatype Registration = Registration(env: Env, descriptor: Option<Builtin>)

  /** Registers a builtin. An empty name aborts; a name already in the builtin
      table is refused with NULL and the table is left as it was. */
  function AddBuiltinFunction(env: Env, name: string, argc: Int32, fn: NativeFn): (r: Result<Registration>)
    ensures r.Fail? <==> |name| == 0
    ensures r.Fail? ==> r.fault == EmptyName
    ensures r.Ok? ==> (r.value.descriptor.None? <==> name in env.cFunctions)
    ensures r.Ok? && name in env.cFunctions ==> r.value.env == env
    ensures r.Ok? && r.value.descriptor.Some? ==>
      && r.value.descriptor.value == Builtin(argc, fn)
      && Lookup(r.value.env.cFunctions, name) == r.value.descriptor
      && r.value.env.cFunctions.Keys == env.cFunctions.Keys + {name}
      && (forall k :: k != name ==> Lookup(r.value.env.cFunctions, k) == Lookup(env.cFunctions, k))
      && r.value.env.functions == env.functions
  {
    if |name| == 0 then Fail(EmptyName)
    else match Lookup(env.cFunctions, name)
      case Some(_) => Ok(Registration(env, None))
      case None =>
        var f := Builtin(argc, fn);
        Ok(Registration(env.(cFunctions := env.cFunctions[name := f]), Some(f)))
  }

  /** Registering a name a second time is refused and keeps the first binding. */
  lemma SecondRegistrationRefused(env: Env, name: string, a1: Int32, f1: NativeFn, a2: Int32, f2: NativeFn)
    requires |name| > 0 && name !in env.cFunctions
    ensures var first := AddBuiltinFunction(env, name, a1, f1);
      && first.Ok? && first.value.descriptor == Some(Builtin(a1, f1))
      && var second := AddBuiltinFunction(first.value.env, name, a2, f2);
      && second == Ok(Registration(first.value.env, None))
      && Lookup(second.value.env.cFunctions, name) == Some(Builtin(a1, f1))
  {
  }

  /** Registering two different fresh names gives the same tables in either order. */
  lemma RegistrationsCommute(env: Env, n1: string, a1: Int32, f1: NativeFn, n2: string, a2: Int32, f2: NativeFn)
    requires |n1| > 0 && |n2| > 0 && n1 != n2
    requires n1 !in env.cFunctions && n2 !in env.cFunctions
    ensures var x := AddBuiltinFunction(env, n1, a1, f1).value.env;
            var y := AddBuiltinFunction(env, n2, a2, f2).value.env;
            AddBuiltinFunction(x, n2, a2, f2).value.env == AddBuiltinFunction(y, n1, a1, f1).value.env
  {
    var x := AddBuiltinFunction(env, n1, a1, f1).value.env;
    var y := AddBuiltinFunction(env, n2, a2, f2).value.env;
    var xy := AddBuiltinFunction(x, n2, a2, f2).value.env;
    var yx := AddBuiltinFunction(y, n1, a1, f1).value.env;
    assert xy.cFunctions.Keys == yx.cFunctions.Keys;
    forall k | k in xy.cFunctions
      ensures xy.cFunctions[k] == yx.cFunctions[k]
    {
      assert Lookup(xy.cFunctions, k) == Lookup(yx.cFunctions, k);
    }
  }

  /** The standard environment: `+` with arity 2 and `print` with arity 1, both
      registrations asserted to succeed. */
  function StandardEnv(): (r: Result<Env>)
    ensures r.Ok?
    ensures r.value.cFunctions.Keys == {"+", "print"}
    ensures Lookup(r.value.cFunctions, "+") == Some(Builtin(2, PlusFn))
    ensures Lookup(r.value.cFunctions, "print") == Some(Builtin(1, PrintFn))
    ensures r.value.functions == map[]
  {
    var first := AddBuiltinFunction(EmptyEnv, "+", 2, PlusFn);
    if first.Fail? || first.value.descriptor.None? then Fail(BuiltinRefused("+"))
    else
      var second := AddBuiltinFunction(first.value.env, "print", 1, PrintFn);
      if second.Fail? || second.value.descriptor.None? then Fail(BuiltinRefused("print"))
      else Ok(second.value.env)
  }

  /** The standard environment as the code builds it when assertions are
      compiled out: both registrations sit inside the assertions, so neither
      happens and the builtin table stays empty. */
  function StandardEnvWithoutAssertions(): (e: Env)
    ensures e.cFunctions.Keys !! {"+", "print"}
  {
    EmptyEnv
  }

  /** Without assertions neither `+` nor `print` can be resolved, whereas the
      standard environment resolves both to their builtins. */
  lemma AssertionsCarryTheRegistrations()
    ensures Resolve(StandardEnvWithoutAssertions(), "+").None?
    ensures Resolve(StandardEnvWithoutAssertions(), "print").None?
    ensures Resolve(StandardEnv().value, "+") == Some(Native(Builtin(2, PlusFn)))
    ensures Resolve(StandardEnv().value, "print") == Some(Native(Builtin(1, PrintFn)))
  {
  }

  /** How the map behind the user table treats a key it already holds. The
      map implementation is not part of this model, so both are allowed. */
  datatype InsertPolicy = Overwrite | KeepFirst

  /** Inserts a program-defined function under its name. */
  function Define(env: Env, name: string, def: Ast, policy: InsertPolicy): (e: Env)
    ensures e.cFunctions == env.cFunctions
    ensures e.functions.Keys == env.functions.Keys + {name}
    ensures name !in env.functions ==> e.functions[name] == def
    ensures policy == Overwrite ==> e.functions[name] == def
    ensures policy == KeepFirst && name in env.functions ==> e == env
    ensures forall k :: k != name ==> Lookup(e.functions, k) == Lookup(env.functions, k)
  {
    match policy
    case Overwrite => env.(functions := env.functions[name := def])
    case KeepFirst =>
      if name in env.functions then env else env.(functions := env.functions[name := def])
  }

  /** What a name resolves to. */
  datatype Binding = Native(builtin: Builtin) | Defined(def: Ast)

  /** Resolves a name: the builtin table first, the user table only when the
      builtin table has no entry. */
  function Resolve(env: Env, name: string): (b: Option<Binding>)
    ensures b.None? <==> name !in env.cFunctions && name !in env.functions
    ensures name in env.cFunctions ==> b == Some(Native(env.cFunctions[name]))
    ensures b.Some? && b.value.Defined? ==> name !in env.cFunctions && b.value.def == env.functions[name]
    ensures name !in env.cFunctions && name in env.functions ==> b == Some(Defined(env.functions[name]))
  {
    match Lookup(env.cFunctions, name)
    case Some(f) => Some(Native(f))
    case None =>
      match Lookup(env.functions, name)
      case Some(d) => Some(Defined(d))
      case None => None
  }

  /** Two environments that differ at most in user bindings hidden behind a
      builtin of the same name. */
  ghost predicate SameReachable(e1: Env, e2: Env) {
    && e1.cFunctions == e2.cFunctions
    && forall k :: k !in e1.cFunctions ==> Lookup(e1.functions, k) == Lookup(e2.functions, k)
  }

  /** Resolution never looks at a user binding whose name is a builtin. */
  lemma ResolveSeesOnlyReachable(e1: Env, e2: Env, name: string)
    requires SameReachable(e1, e2)
    ensures Resolve(e1, name) == Resolve(e2, name)
  {
    if name !in e1.cFunctions {
      assert Lookup(e1.functions, name) == Lookup(e2.functions, name);
    }
  }
}

=== FILE: eval.dfy ===
/** The tree-walking evaluator: node dispatch, name resolution and the two
    kinds of call (builtin and program-defined). */
module Eval {
  import opened Common
  import opened Parse
  import opened Environment

  /** A pointer to a value; a builtin may hand back NULL. */
  datatype Ref = Null | Ptr(value: Value)

  /** One call of a native function: the name it was called by, its callable,
      the argc handed to it and the argument array. */
  datatype Invocation = Invocation(name: string, fn: NativeFn, argc: Int32, args: seq<Ref>)

  /** The native calls an evaluation made, oldest first. */
  type Trace = seq<Invocation>

  /** What each native callable returns for an argc and an argument array. */
  type Natives = (NativeFn, Int32, seq<Ref>) -> Ref

  /** The outcome of evaluating one node, with the native calls made on the way
      (also when it fails: those calls already happened). */
  datatype Run = Run(result: Result<Ref>, trace: Trace)

  /** Walks past the parameter markers at the start of a definition's `next`
      chain: the number of leading `FunctionArg` nodes and the first node that
      is not one. Running off the end of the chain is a NULL dereference. */
  function SkipArgs(start: Option<Ast>): (r: Result<(nat, Ast)>)
    ensures r.Fail? ==> r.fault == NullLink
    ensures r.Fail? <==> forall i :: 0 <= i < |Chain(start)| ==> Chain(start)[i].atom.kind == FunctionArg
    ensures r.Ok? ==>
      && r.value.0 < |Chain(start)|
      && Chain(start)[r.value.0] == r.value.1
      && r.value.1.atom.kind != FunctionArg
      && forall i :: 0 <= i < r.value.0 ==> Chain(start)[i].atom.kind == FunctionArg
    decreases start
  {
    match start
    case None => Fail(NullLink)
    case Some(n) =>
      assert Chain(start) == [n] + Chain(n.next);
      if n.atom.kind != FunctionArg then Ok((0, n))
      else
        match SkipArgs(n.next)
        case Fail(f) => Fail(f)
        case Ok(p) =>
          assert forall i :: 0 < i < |Chain(start)| ==> Chain(start)[i] == Chain(n.next)[i - 1];
          assert Chain(start)[p.0 + 1] == p.1;
          Ok((p.0 + 1, p.1))
  }

  /** Evaluates one node. A call delegates to the callee at `next`; an atom
      falls through into the return case and both yield the atom of `next`;
      every other kind yields its own atom. `fuel` bounds how deeply
      program-defined function bodies may nest. */
  function EnvEval(ast: Ast, env: Env, natives: Natives, fuel: nat): (r: Run)
    ensures ast.atom.kind != Call ==> r.trace == []
    ensures ast.atom.kind != Call && r.result.Fail? ==> r.result.fault == NullLink && ast.next.None?
    decreases fuel, ast, 2
  {
    match ast.atom.kind
    case Call =>
      (match ast.next
       case None => Run(Fail(NullLink), [])
       case Some(callee) => CallFunction(callee, env, natives, fuel))
    case Atom => ReturnNext(ast)
    case Return => ReturnNext(ast)
    case _ => Run(Ok(Ptr(ast.atom)), [])
  }

  /** The shared `Atom`/`Return` case: the atom of the following node. */
  function ReturnNext(ast: Ast): Run {
    match ast.next
    case None => Run(Fail(NullLink), [])
    case Some(n) => Run(Ok(Ptr(n.atom)), [])
  }

  /** Calls the function named by `callee`: a builtin if the builtin table has
      the name, otherwise a program-defined function, otherwise an abort. */
  function CallFunction(callee: Ast, env: Env, natives: Natives, fuel: nat): (r: Run)
    ensures callee.atom.payload.Num? ==> r == Run(Fail(NotAName), [])
    ensures callee.atom.payload.Str? && Resolve(env, callee.atom.payload.str).None? ==>
      r == Run(Fail(NoSuchFunction(callee.atom.payload.str)), [])
    ensures callee.atom.payload.Str? && callee.atom.payload.str in env.cFunctions && r.result.Ok? ==>
      var b := env.cFunctions[callee.atom.payload.str];
      && |r.trace| > 0
      && r.trace[|r.trace| - 1] == Invocation(callee.atom.payload.str, b.fn, b.argc, r.trace[|r.trace| - 1].args)
      && r.result.value == natives(b.fn, b.argc, r.trace[|r.trace| - 1].args)
    ensures callee.atom.payload.Str? && callee.atom.payload.str !in env.cFunctions
            && callee.atom.payload.str in env.functions && r.result.Ok? ==>
      var c := Chain(env.functions[callee.atom.payload.str].next);
      |c| > 0 && c[0].atom.kind != FunctionArg && fuel > 0
    decreases fuel, callee, 1
  {
    match callee.atom.payload
    case Num(_) => Run(Fail(NotAName), [])
    case Str(name) =>
      match Resolve(env, name)
      case None => Run(Fail(NoSuchFunction(name)), [])
      case Some(Native(b)) => CallBuiltin(callee, name, b, env, natives, fuel)
      case Some(Defined(def)) =>
        match SkipArgs(def.next)
        case Fail(f) => Run(Fail(f), [])
        case Ok(p) =>
          if p.0 > 0 then Run(Fail(NotYetImplemented), [])
          else if fuel == 0 then Run(Fail(OutOfFuel), [])
          else EnvEval(p.1, env, natives, fuel - 1)
  }

  /** Calls a builtin. Only one argument shape is supported: the node after the
      callee must be a call, which is evaluated first and handed over as a
      one-element argument array together with the builtin's declared argc. */
  function CallBuiltin(callee: Ast, name: string, b: Builtin, env: Env, natives: Natives, fuel: nat): (r: Run)
    ensures r.result.Ok? ==> callee.next.Some? && callee.next.value.atom.kind == Call
    ensures callee.next.Some? && callee.next.value.atom.kind != Call ==> r == Run(Fail(NotYetImplemented), [])
    ensures callee.next.Some? && callee.next.value.atom.kind == Call ==>
      var a := EnvEval(callee.next.value, env, natives, fuel);
      && (r.result.Ok? <==> a.result.Ok?)
      && (r.result.Fail? ==> r == a)
      && (r.result.Ok? ==>
            && r.trace == a.trace + [Invocation(name, b.fn, b.argc, [a.result.value])]
            && r.result.value == natives(b.fn, b.argc, [a.result.value]))
    decreases fuel, callee, 0
  {
    match callee.next
    case None => Run(Fail(NullLink), [])
    case Some(arg) =>
      if arg.atom.kind != Call then Run(Fail(NotYetImplemented), [])
      else
        var a := EnvEval(arg, env, natives, fuel);
        match a.result
        case Fail(f) => Run(Fail(f), a.trace)
        case Ok(v) => Run(Ok(natives(b.fn, b.argc, [v])), a.trace + [Invocation(name, b.fn, b.argc, [v])])
  }

  // ---------------------------------------------------------------------
  // Dispatch

  /** The `Atom` case falls through into `Return`: two nodes that differ only
      in being an atom or a return evaluate identically. */
  lemma AtomBehavesAsReturn(ast: Ast, env: Env, natives: Natives, fuel: nat)
    requires ast.atom.kind == Atom
    ensures EnvEval(ast, env, natives, fuel)
         == EnvEval(ast.(atom := ast.atom.(kind := Return)), env, natives, fuel)
    ensures EnvEval(ast, env, natives, fuel).result
         == (if ast.next.Some? then Ok(Ptr(ast.next.value.atom)) else Fail(NullLink))
  {
  }

  /** Every kind other than call, atom and return evaluates to its own atom,
      unchanged, without calling anything. */
  lemma OtherKindsYieldOwnAtom(ast: Ast, env: Env, natives: Natives, fuel: nat)
    requires ast.atom.kind != Call && ast.atom.kind != Atom && ast.atom.kind != Return
    ensures EnvEval(ast, env, natives, fuel) == Run(Ok(Ptr(ast.atom)), [])
  {
  }

  /** A call node delegates to the callee at its `next`, whatever kind the
      callee node has; with no `next` it dereferences NULL. */
  lemma CallDelegates(ast: Ast, env: Env, natives: Natives, fuel: nat)
    requires ast.atom.kind == Call
    ensures EnvEval(ast, env, natives, fuel)
         == (if ast.next.None? then Run(Fail(NullLink), []) else CallFunction(ast.next.value, env, natives, fuel))
  {
  }

  /** A name in the builtin table is called as that builtin, with or without
      a program-defined function of the same name. */
  lemma BuiltinNameCallsBuiltin(callee: Ast, env: Env, natives: Natives, fuel: nat)
    requires callee.atom.payload.Str? && callee.atom.payload.str in env.cFunctions
    ensures CallFunction(callee, env, natives, fuel)
         == CallBuiltin(callee, callee.atom.payload.str, env.cFunctions[callee.atom.payload.str], env, natives, fuel)
  {
  }

  /** Of the callee node a call reads only the name and the `next` link: its
      kind, children and sibling play no part. */
  lemma CalleeReadsOnlyNameAndNext(c1: Ast, c2: Ast, env: Env, natives: Natives, fuel: nat)
    requires c1.atom.payload == c2.atom.payload && c1.next == c2.next
    ensures CallFunction(c1, env, natives, fuel) == CallFunction(c2, env, natives, fuel)
  {
  }

  // ---------------------------------------------------------------------
  // Program-defined functions

  /** A program-defined call: with `k` leading parameter markers after the
      definition node, a non-zero `k` is unsupported and `k == 0` evaluates
      the first node after the definition (given fuel for one more level). */
  lemma DefinedCallSkipsParameters(callee: Ast, env: Env, natives: Natives, fuel: nat, k: nat)
    requires callee.atom.payload.Str?
    requires callee.atom.payload.str !in env.cFunctions && callee.atom.payload.str in env.functions
    requires var c := Chain(env.functions[callee.atom.payload.str].next);
      && k < |c| && c[k].atom.kind != FunctionArg
      && forall i :: 0 <= i < k ==> c[i].atom.kind == FunctionArg
    ensures var c := Chain(env.functions[callee.atom.payload.str].next);
      && (k > 0 ==> CallFunction(callee, env, natives, fuel) == Run(Fail(NotYetImplemented), []))
      && (k == 0 && fuel > 0 ==> CallFunction(callee, env, natives, fuel) == EnvEval(c[0], env, natives, fuel - 1))
      && (k == 0 && fuel == 0 ==> CallFunction(callee, env, natives, fuel) == Run(Fail(OutOfFuel), []))
  {
    var c := Chain(env.functions[callee.atom.payload.str].next);
    var s := SkipArgs(env.functions[callee.atom.payload.str].next);
    assert s.Ok? by {
      assert c[k].atom.kind != FunctionArg;
    }
    // The first non-parameter node is unique, so SkipArgs found index k.
    assert s.value.0 == k;
  }

  // ---------------------------------------------------------------------
  // Native calls are well formed

  /** Every recorded native call names a builtin registered in `env`, with that
      builtin's callable and declared arity, and passes exactly one argument. */
  ghost predicate InvokesRegistered(trace: Trace, env: Env) {
    forall i :: 0 <= i < |trace| ==>
      && trace[i].name in env.cFunctions
      && env.cFunctions[trace[i].name] == Builtin(trace[i].argc, trace[i].fn)
      && |trace[i].args| == 1
  }

  lemma {:induction false} EnvEvalInvokesRegistered(ast: Ast, env: Env, natives: Natives, fuel: nat)
    ensures InvokesRegistered(EnvEval(ast, env, natives, fuel).trace, env)
    decreases fuel, ast, 2
  {
    if ast.atom.kind == Call && ast.next.Some? {
      CallFunctionInvokesRegistered(ast.next.value, env, natives, fuel);
    }
  }

  lemma {:induction false} CallFunctionInvokesRegistered(callee: Ast, env: Env, natives: Natives, fuel: nat)
    ensures InvokesRegistered(CallFunction(callee, env, natives, fuel).trace, env)
    decreases fuel, callee, 1
  {
    match callee.atom.payload
    case Num(_) =>
    case Str(name) =>
      match Resolve(env, name)
      case None =>
      case Some(Native(b)) =>
        if callee.next.Some? && callee.next.value.atom.kind == Call {
          EnvEvalInvokesRegistered(callee.next.value, env, natives, fuel);
          var a := EnvEval(callee.next.value, env, natives, fuel);
          var r := CallBuiltin(callee, name, b, env, natives, fuel);
          if r.result.Ok? {
            assert r.trace == a.trace + [Invocation(name, b.fn, b.argc, [a.result.value])];
            assert forall i :: 0 <= i < |a.trace| ==> r.trace[i] == a.trace[i];
          }
        }
      case Some(Defined(def)) =>
        var s := SkipArgs(def.next);
        if s.Ok? && s.value.0 == 0 && fuel > 0 {
          EnvEvalInvokesRegistered(s.value.1, env, natives, fuel - 1);
        }
  }

  // ---------------------------------------------------------------------
  // Builtins come first

  /** Evaluation only ever consults user bindings that no builtin hides. */
  lemma {:induction false} EnvEvalSameReachable(ast: Ast, e1: Env, e2: Env, natives: Natives, fuel: nat)
    requires SameReachable(e1, e2)
    ensures EnvEval(ast, e1, natives, fuel) == EnvEval(ast, e2, natives, fuel)
    decreases fuel, ast, 2
  {
    if ast.atom.kind == Call && ast.next.Some? {
      CallFunctionSameReachable(ast.next.value, e1, e2, natives, fuel);
    }
  }

  lemma {:induction false} CallFunctionSameReachable(callee: Ast, e1: Env, e2: Env, natives: Natives, fuel: nat)
    requires SameReachable(e1, e2)
    ensures CallFunction(callee, e1, natives, fuel) == CallFunction(callee, e2, natives, fuel)
    decreases fuel, callee, 1
  {
    match callee.atom.payload
    case Num(_) =>
    case Str(name) =>
      ResolveSeesOnlyReachable(e1, e2, name);
      match Resolve(e1, name)
      case None =>
      case Some(Native(b)) =>
        if callee.next.Some? && callee.next.value.atom.kind == Call {
          EnvEvalSameReachable(callee.next.value, e1, e2, natives, fuel);
        }
      case Some(Defined(def)) =>
        var s := SkipArgs(def.next);
        if s.Ok? && s.value.0 == 0 && fuel > 0 {
          EnvEvalSameReachable(s.value.1, e1, e2, natives, fuel - 1);
        }
  }

  /** A program-defined function that has the name of a builtin can never be
      reached: rebinding or removing it changes no evaluation. */
  lemma BuiltinHidesDefinedFunction(ast: Ast, env: Env, natives: Natives, fuel: nat, name: string, def: Ast)
    requires name in env.cFunctions
    ensures EnvEval(ast, env, natives, fuel) == EnvEval(ast, env.(functions := env.functions[name := def]), natives, fuel)
    ensures EnvEval(ast, env, natives, fuel) == EnvEval(ast, env.(functions := env.functions - {name}), natives, fuel)
  {
    var e2 := env.(functions := env.functions[name := def]);
    var e3 := env.(functions := env.functions - {name});
    assert forall k :: k !in env.cFunctions ==> Lookup(env.functions, k) == Lookup(e2.functions, k);
    assert forall k :: k !in env.cFunctions ==> Lookup(env.functions, k) == Lookup(e3.functions, k);
    EnvEvalSameReachable(ast, env, e2, natives, fuel);
    EnvEvalSameReachable(ast, env, e3, natives, fuel);
  }

  // ---------------------------------------------------------------------
  // Fuel

  /** More fuel never changes an evaluation that did not run out of fuel. */
  lemma {:induction false} EnvEvalFuelMonotone(ast: Ast, env: Env, natives: Natives, fuel: nat, more: nat)
    requires fuel <= more
    requires EnvEval(ast, env, natives, fuel).result != Fail(OutOfFuel)
    ensures EnvEval(ast, env, natives, more) == EnvEval(ast, env, natives, fuel)
    decreases fuel, ast, 2
  {
    if ast.atom.kind == Call && ast.next.Some? {
      CallFunctionFuelMonotone(ast.next.value, env, natives, fuel, more);
    }
  }

  lemma {:induction false} CallFunctionFuelMonotone(callee: Ast, env: Env, natives: Natives, fuel: nat, more: nat)
    requires fuel <= more
    requires CallFunction(callee, env, natives, fuel).result != Fail(OutOfFuel)
    ensures CallFunction(callee, env, natives, more) == CallFunction(callee, env, natives, fuel)
    decreases fuel, callee, 1
  {
    match callee.atom.payload
    case Num(_) =>
    case Str(name) =>
      match Resolve(env, name)
      case None =>
      case Some(Native(b)) =>
        if callee.next.Some? && callee.next.value.atom.kind == Call {
          EnvEvalFuelMonotone(callee.next.value, env, natives, fuel, more);
        }
      case Some(Defined(def)) =>
        var s := SkipArgs(def.next);
        if s.Ok? && s.value.0 == 0 {
          EnvEvalFuelMonotone(s.value.1, env, natives, fuel - 1, more - 1);
        }
  }

  // ---------------------------------------------------------------------
  // Evaluation is read-only

  /** The node after `n` on a `next` chain that contains `n`. */
  lemma {:induction false} ChainStep(start: Option<Ast>, k: nat)
    requires k < |Chain(start)| && Chain(start)[k].next.Some?
    ensures k + 1 < |Chain(start)| && Chain(start)[k + 1] == Chain(start)[k].next.value
    decreases start
  {
    var n := start.value;
    assert Chain(start) == [n] + Chain(n.next);
    if k > 0 {
      ChainStep(n.next, k - 1);
    }
  }

  /** The value returned by the most recent native call of a trace. */
  ghost predicate ReturnedByLastNative(v: Ref, trace: Trace, natives: Natives) {
    |trace| > 0 && v == natives(trace[|trace| - 1].fn, trace[|trace| - 1].argc, trace[|trace| - 1].args)
  }

  /** `v` is the atom of some node on a definition's `next` chain. */
  ghost predicate InSomeDefinition(v: Ref, env: Env) {
    exists name, i :: name in env.functions && 0 <= i < |Chain(env.functions[name].next)|
                      && v == Ptr(Chain(env.functions[name].next)[i].atom)
  }

  /** Nothing is invented or altered: a call yields what the last native call
      returned or an unchanged atom of a function definition; any other node
      yields its own atom or that of its `next`, unchanged. */
  lemma {:induction false} EnvEvalInventsNothing(ast: Ast, env: Env, natives: Natives, fuel: nat)
    ensures var r := EnvEval(ast, env, natives, fuel);
      r.result.Ok? ==>
        if ast.atom.kind == Call then
          ReturnedByLastNative(r.result.value, r.trace, natives) || InSomeDefinition(r.result.value, env)
        else
          r.result.value == Ptr(ast.atom) || (ast.next.Some? && r.result.value == Ptr(ast.next.value.atom))
    decreases fuel, ast, 2
  {
    if ast.atom.kind == Call && ast.next.Some? {
      CallFunctionInventsNothing(ast.next.value, env, natives, fuel);
    }
  }

  lemma {:induction false} CallFunctionInventsNothing(callee: Ast, env: Env, natives: Natives, fuel: nat)
    ensures var r := CallFunction(callee, env, natives, fuel);
      r.result.Ok? ==> ReturnedByLastNative(r.result.value, r.trace, natives) || InSomeDefinition(r.result.value, env)
    decreases fuel, callee, 1
  {
    match callee.atom.payload
    case Num(_) =>
    case Str(name) =>
      match Resolve(env, name)
      case None =>
      case Some(Native(b)) =>
      case Some(Defined(def)) =>
        var s := SkipArgs(def.next);
        if s.Ok? && s.value.0 == 0 && fuel > 0 {
          var body := s.value.1;
          var r := EnvEval(body, env, natives, fuel - 1);
          EnvEvalInventsNothing(body, env, natives, fuel - 1);
          assert def == env.functions[name];
          var c := Chain(def.next);
          assert c[0] == body;
          if r.result.Ok? && body.atom.kind != Call {
            if r.result.value == Ptr(body.atom) {
              assert InSomeDefinition(r.result.value, env);
            } else {
              ChainStep(def.next, 0);
              assert r.result.value == Ptr(c[1].atom);
              assert InSomeDefinition(r.result.value, env);
            }
          }
        }
  }
}

=== FILE: parse.dfy ===
/** The token, value and syntax-tree types shared by the parser and the evaluator. */
module Parse {
  import opened Common

  /** The closed set of token kinds, in declaration order. */
  datatype TokenKind =
    | Error        // unknown type, should not happen
    | Function
    | Operator
    | Return
    | FunctionArg
    | Variable
    | Indent
    | Dedent       // emitted on every newline
    | Eof
    | String
    | Call
    | Atom         // a reference to a variable or a function
    | Number

  const KindCount: nat := 13

  /** The numeric value C gives each enumerator (the first is 0, each next one adds 1). */
  function Ordinal(k: TokenKind): (n: nat)
    ensures n < KindCount
  {
    match k
    case Error => 0
    case Function => 1
    case Operator => 2
    case Return => 3
    case FunctionArg => 4
    case Variable => 5
    case Indent => 6
    case Dedent => 7
    case Eof => 8
    case String => 9
    case Call => 10
    case Atom => 11
    case Number => 12
  }

  /** The enumerator with a given numeric value, if there is one. */
  function KindOf(n: nat): (k: Option<TokenKind>)
    ensures k.Some? <==> n < KindCount
  {
    if n == 0 then Some(Error)
    else if n == 1 then Some(Function)
    else if n == 2 then Some(Operator)
    else if n == 3 then Some(Return)
    else if n == 4 then Some(FunctionArg)
    else if n == 5 then Some(Variable)
    else if n == 6 then Some(Indent)
    else if n == 7 then Some(Dedent)
    else if n == 8 then Some(Eof)
    else if n == 9 then Some(String)
    else if n == 10 then Some(Call)
    else if n == 11 then Some(Atom)
    else if n == 12 then Some(Number)
    else None
  }

  /** The enumeration is closed: numbering is a bijection between the kinds
      and 0 .. 12, so there are exactly thirteen of them. */
  lemma KindsAreExactlyThirteen(k: TokenKind, n: nat)
    ensures KindOf(Ordinal(k)) == Some(k)
    ensures n < KindCount ==> Ordinal(KindOf(n).value) == n
    ensures forall j: TokenKind :: Ordinal(j) == Ordinal(k) ==> j == k
  {
  }

  /** A token: its text, its kind and the (unsigned, hence never negative)
      indentation level of its line. In the C list each token also links to
      its neighbours; here a token stream is a `seq<Token>`. */
  datatype Token = Token(text: string, kind: TokenKind, indentLevel: UInt32)

  /** The untagged payload union: an int or a string. */
  datatype Payload = Num(num: Int32) | Str(str: string)

  /** A value: a kind tag, fixed when the value is built, and a payload. As in
      the C union, nothing forces the payload to match the tag. */
  datatype Value = Value(kind: TokenKind, payload: Payload)

  /** A syntax-tree node: exactly one atom and three independent optional
      links, `next` (sequencing), `children` (first child) and `sibling`
      (next node in the parent's child list). */
  datatype Ast = Ast(next: Option<Ast>, children: Option<Ast>, sibling: Option<Ast>, atom: Value)

  /** The nodes met by following `next` from `start`, in order. */
  function Chain(start: Option<Ast>): (c: seq<Ast>)
    ensures start.None? <==> |c| == 0
    ensures start.Some? ==> c[0] == start.value
  {
    match start
    case None => []
    case Some(n) => [n] + Chain(n.next)
  }

  /** The nodes met by following `sibling` from `start`, in order. */
  function Siblings(start: Option<Ast>): (c: seq<Ast>)
    ensures start.None? <==> |c| == 0
    ensures start.Some? ==> c[0] == start.value
  {
    match start
    case None => []
    case Some(n) => [n] + Siblings(n.sibling)
  }
}

=== FILE: scenarios.dfy ===
/** Small whole programs, built as syntax trees, and what running them does. */
module Scenarios {
  import opened Common
  import opened Parse
  import opened Environment
  import opened Eval
  import opened Driver

  /** A node with no links. */
  function Leaf(kind: TokenKind, payload: Payload): Ast {
    Ast(None, None, None, Value(kind, payload))
  }

  /** A call statement `name <arg>`: a call node followed by the callee and,
      when given, the argument node. */
  function CallOf(name: string, arg: Option<Ast>, sibling: Option<Ast>): Ast {
    Ast(Some(Ast(arg, None, None, Value(Atom, Str(name)))), None, sibling, Value(Call, Str(name)))
  }

  const One: Value := Value(Number, Num(1))

  /** A definition of `name` whose single statement is the number 1, with
      `params` parameter markers in front of it. */
  function DefineOne(name: string, params: nat, sibling: Option<Ast>): Ast {
    Ast(Some(Params(params)), None, sibling, Value(Function, Str(name)))
  }

  function Params(k: nat): Ast
    decreases k
  {
    if k == 0 then Leaf(Number, Num(1))
    else Ast(Some(Params(k - 1)), None, None, Value(FunctionArg, Str("x")))
  }

  /** A program root whose top-level list starts at `first`. */
  function Program(first: Ast): Ast {
    Ast(None, Some(first), None, Value(Error, Str("")))
  }

  function RunProgram(root: Ast, natives: Natives, policy: InsertPolicy, fuel: nat): Outcome {
    TopLevel(Siblings(root.children), StandardEnv().value, natives, policy, fuel)
  }

  /** Evaluating `name` with no argument where `name` is defined as the
      number 1 and not a builtin. */
  lemma CallOfDefinedOne(name: string, sibling: Option<Ast>, env: Env, natives: Natives)
    requires name !in env.cFunctions && name in env.functions
    requires env.functions[name] == DefineOne(name, 0, sibling)
    ensures EnvEval(CallOf(name, None, None), env, natives, 1) == Run(Ok(Ptr(One)), [])
  {
    var callee := Ast(None, None, None, Value(Atom, Str(name)));
    assert Resolve(env, name) == Some(Defined(DefineOne(name, 0, sibling)));
    assert SkipArgs(Some(Leaf(Number, Num(1)))) == Ok((0, Leaf(Number, Num(1))));
    assert CallFunction(callee, env, natives, 1) == EnvEval(Leaf(Number, Num(1)), env, natives, 0);
  }

  /** `print (name)` or `+ (name)` with `name` defined as the number 1. */
  lemma BuiltinOfDefinedOne(b: string, name: string, sibling: Option<Ast>, rest: Option<Ast>, env: Env, natives: Natives)
    requires b in env.cFunctions
    requires name !in env.cFunctions && name in env.functions
    requires env.functions[name] == DefineOne(name, 0, sibling)
    ensures var bi := env.cFunctions[b];
      EnvEval(CallOf(b, Some(CallOf(name, None, None)), rest), env, natives, 1)
        == Run(Ok(natives(bi.fn, bi.argc, [Ptr(One)])), [Invocation(b, bi.fn, bi.argc, [Ptr(One)])])
  {
    var arg := CallOf(name, None, None);
    var callee := Ast(Some(arg), None, None, Value(Atom, Str(b)));
    CallOfDefinedOne(name, sibling, env, natives);
    assert Resolve(env, b) == Some(Native(env.cFunctions[b]));
    assert CallFunction(callee, env, natives, 1) == CallBuiltin(callee, b, env.cFunctions[b], env, natives, 1);
  }

  /** Defining `one` and then calling `print (one)` calls `print` exactly once,
      with the number 1; the definition itself calls nothing. */
  lemma DefineThenPrint(natives: Natives, policy: InsertPolicy)
    ensures var o := RunProgram(Program(DefineOne("one", 0, Some(CallOf("print", Some(CallOf("one", None, None)), None)))),
                         natives, policy, 1);
      && o.status == Ok(0)
      && o.trace == [Invocation("print", PrintFn, 1, [Ptr(One)])]
  {
    var printStmt := CallOf("print", Some(CallOf("one", None, None)), None);
    var def := DefineOne("one", 0, Some(printStmt));
    var env0 := StandardEnv().value;
    var env1 := Define(env0, "one", def, policy);
    assert Siblings(Some(def)) == [def, printStmt];
    assert "one" !in env0.cFunctions && "print" in env0.cFunctions;
    BuiltinOfDefinedOne("print", "one", Some(printStmt), None, env1, natives);
    assert [def, printStmt][1..] == [printStmt];
    assert [printStmt][1..] == [];
    assert TopLevel([printStmt], env1, natives, policy, 1).trace == [Invocation("print", PrintFn, 1, [Ptr(One)])];
  }

  /** The same two statements in the other order fail: the call runs before
      the definition is entered, and nothing is printed. */
  lemma PrintBeforeDefine(natives: Natives, policy: InsertPolicy, fuel: nat)
    ensures var o := RunProgram(Program(CallOf("print", Some(CallOf("one", None, None)), Some(DefineOne("one", 0, None)))),
                         natives, policy, fuel);
      && o.status == Fail(NoSuchFunction("one"))
      && o.trace == []
  {
    var arg := CallOf("one", None, None);
    var printStmt := CallOf("print", Some(arg), Some(DefineOne("one", 0, None)));
    var callee := printStmt.next.value;
    var env0 := StandardEnv().value;
    assert Resolve(env0, "one").None?;
    assert EnvEval(arg, env0, natives, fuel) == Run(Fail(NoSuchFunction("one")), []);
    assert Resolve(env0, "print") == Some(Native(Builtin(1, PrintFn)));
    assert CallFunction(callee, env0, natives, fuel) == CallBuiltin(callee, "print", Builtin(1, PrintFn), env0, natives, fuel);
    assert EnvEval(printStmt, env0, natives, fuel) == Run(Fail(NoSuchFunction("one")), []);
    assert Siblings(Some(printStmt))[0] == printStmt;
  }

  /** `print` applied directly to a number is not a supported argument shape:
      only a nested call may be a builtin's argument. */
  lemma PrintOfNumberIsUnsupported(natives: Natives, policy: InsertPolicy, fuel: nat)
    ensures var o := RunProgram(Program(CallOf("print", Some(Leaf(Number, Num(1))), None)), natives, policy, fuel);
      && o.status == Fail(NotYetImplemented)
      && o.trace == []
  {
    var stmt := CallOf("print", Some(Leaf(Number, Num(1))), None);
    var callee := stmt.next.value;
    var env0 := StandardEnv().value;
    assert Resolve(env0, "print") == Some(Native(Builtin(1, PrintFn)));
    assert CallFunction(callee, env0, natives, fuel) == CallBuiltin(callee, "print", Builtin(1, PrintFn), env0, natives, fuel);
    assert EnvEval(stmt, env0, natives, fuel) == Run(Fail(NotYetImplemented), []);
    assert Siblings(Some(stmt))[0] == stmt;
  }

  /** Calling a function that declares a parameter is not supported. */
  lemma ParameterisedCallIsUnsupported(natives: Natives, policy: InsertPolicy, fuel: nat)
    ensures var o := RunProgram(Program(DefineOne("f", 1, Some(CallOf("print", Some(CallOf("f", None, None)), None)))),
                         natives, policy, fuel);
      && o.status == Fail(NotYetImplemented)
      && o.trace == []
  {
    var arg := CallOf("f", None, None);
    var printStmt := CallOf("print", Some(arg), None);
    var callee := printStmt.next.value;
    var def := DefineOne("f", 1, Some(printStmt));
    var env0 := StandardEnv().value;
    var env1 := Define(env0, "f", def, policy);
    assert Siblings(Some(def)) == [def, printStmt];
    assert "f" !in env0.cFunctions && "f" !in env0.functions;
    assert Resolve(env1, "f") == Some(Defined(def));
    assert Chain(def.next)[0].atom.kind == FunctionArg;
    assert Chain(def.next)[1] == Leaf(Number, Num(1));
    DefinedCallSkipsParameters(arg.next.value, env1, natives, fuel, 1);
    assert EnvEval(arg, env1, natives, fuel) == Run(Fail(NotYetImplemented), []);
    assert Resolve(env1, "print") == Some(Native(Builtin(1, PrintFn)));
    assert CallFunction(callee, env1, natives, fuel) == CallBuiltin(callee, "print", Builtin(1, PrintFn), env1, natives, fuel);
    assert EnvEval(printStmt, env1, natives, fuel) == Run(Fail(NotYetImplemented), []);
    assert TopLevel([printStmt], env1, natives, policy, fuel) == Outcome(Fail(NotYetImplemented), [], env1);
    assert [def, printStmt][1..] == [printStmt];
    assert TopLevel([def, printStmt], env0, natives, policy, fuel) == TopLevel([printStmt], env1, natives, policy, fuel);
  }

  /** A top-level statement `b (name)` with `name` defined as the number 1
      completes, leaves the environment as it was and records one call of `b`. */
  lemma StatementOfDefinedOne(b: string, name: string, sibling: Option<Ast>, rest: Option<Ast>, env: Env, natives: Natives, policy: InsertPolicy)
    requires b in env.cFunctions
    requires name !in env.cFunctions && name in env.functions
    requires env.functions[name] == DefineOne(name, 0, sibling)
    ensures var bi := env.cFunctions[b];
      TopLevel([CallOf(b, Some(CallOf(name, None, None)), rest)], env, natives, policy, 1)
        == Outcome(Ok(0), [Invocation(b, bi.fn, bi.argc, [Ptr(One)])], env)
  {
    var stmt := CallOf(b, Some(CallOf(name, None, None)), rest);
    BuiltinOfDefinedOne(b, name, sibling, rest, env, natives);
    assert [stmt][1..] == [];
  }

  /** Defining `name` as the number 1 and then running `b1 (name)` and
      `b2 (name)` completes with one call of `b1` followed by one call of `b2`. */
  lemma DefineThenTwoStatements(name: string, b1: string, b2: string, env: Env, natives: Natives, policy: InsertPolicy)
    requires b1 in env.cFunctions && b2 in env.cFunctions
    requires name !in env.cFunctions && name !in env.functions
    ensures var second := CallOf(b2, Some(CallOf(name, None, None)), None);
      var first := CallOf(b1, Some(CallOf(name, None, None)), Some(second));
      var o := TopLevel(Siblings(Some(DefineOne(name, 0, Some(first)))), env, natives, policy, 1);
      && o.status == Ok(0)
      && o.trace == [Invocation(b1, env.cFunctions[b1].fn, env.cFunctions[b1].argc, [Ptr(One)]),
                     Invocation(b2, env.cFunctions[b2].fn, env.cFunctions[b2].argc, [Ptr(One)])]
  {
    var second := CallOf(b2, Some(CallOf(name, None, None)), None);
    var first := CallOf(b1, Some(CallOf(name, None, None)), Some(second));
    var def := DefineOne(name, 0, Some(first));
    var env1 := Define(env, name, def, policy);
    assert Siblings(Some(second)) == [second];
    assert Siblings(Some(first)) == [first, second];
    assert Siblings(Some(def)) == [def, first, second];
    StatementOfDefinedOne(b1, name, Some(first), Some(second), env1, natives, policy);
    StatementOfDefinedOne(b2, name, Some(first), None, env1, natives, policy);
    TopLevelSequential([first], [second], env1, natives, policy, 1);
    assert [first] + [second] == [first, second];
    assert [def, first, second][1..] == [first, second];
  }

  /** Two top-level calls run left to right: the first one's native call is
      recorded before the second one's. */
  lemma TwoCallsInOrder(natives: Natives, policy: InsertPolicy)
    ensures var o := RunProgram(Program(DefineOne("one", 0,
                           Some(CallOf("print", Some(CallOf("one", None, None)),
                             Some(CallOf("+", Some(CallOf("one", None, None)), None)))))),
                         natives, policy, 1);
      && o.status == Ok(0)
      && o.trace == [Invocation("print", PrintFn, 1, [Ptr(One)]), Invocation("+", PlusFn, 2, [Ptr(One)])]
  {
    var env0 := StandardEnv().value;
    assert "one" !in env0.cFunctions && "print" in env0.cFunctions && "+" in env0.cFunctions;
    assert "one" !in env0.functions;
    DefineThenTwoStatements("one", "print", "+", env0, natives, policy);
  }
}
